=== FILE: README.md ===
# ifucube in Dafny

A verified model of the small core of `ifucube`, a tool for reading and checking FITS files
that hold 3D integral-field-unit (IFU) spectral cubes. The model covers three pieces:

- **Unit clean-up and cube construction** (`ifucube/ifucube.py`). The `IFUCube.unit` setter
  rewrites malformed unit spellings through the fixed, ordered `unit_mapping` table, using Python's
  `str.replace` for each entry. `constructFromHDU` and `__init__` take the name, unit, data shape
  and header from an extension. The effective `__str__` renders `IFUCube <name> <shape>`.
- **The header checker** (top-level `ifucube.py`). `check_ctype` reports whether `CTYPE1` is in
  extension 0's header and, with `fix`, inserts `CTYPE1 = 0`. `check_data` is meant to report
  whether extension 0 has data; as written it raises `AttributeError` when the array is missing
  (see "## Findings"). `check` collects every `check_*` method in `dir()` order and calls each
  one, discarding its result.
- **The cube list** (`ifucube/ifucubelist.py`). `IFUList.read` keeps, in file order, the
  extensions whose data is present and exactly 3-dimensional, and builds a cube from each.
  `__str__` renders the list as `[0. <cube>, 1. <cube>, ...]`.

Files, one module each:

| file | module | models |
|---|---|---|
| `results.dfy` | `Results` | the Python exceptions raised by the code or by the traitlets trait it assigns to (`IndexError`, `AttributeError`, `TraitError`) |
| `fits.dfy` | `Fits` | an opened file as a sequence of extensions; a header as a map from keyword to an `Int`/`Str` value; data as an optional shape |
| `replace.dfy` | `Replace` | `str.replace`: every non-overlapping occurrence, scanning left to right |
| `units.dfy` | `Units` | `unit_mapping` and the setter's replacement loop |
| `text.dfy` | `Text` | `str(int)` and `str.join` |
| `cubes.dfy` | `Cubes` | `IFUCube` construction and `__str__` |
| `cubelist.dfy` | `CubeList` | `IFUList.read` and `IFUList.__str__` |
| `ordering.dfy` | `Ordering` | Python's string order, the sort `dir()` applies and the `startswith` filter |
| `checker.dfy` | `Checker` | `check_ctype`, `check_data` and the dispatch in `check` |

Header keywords are assumed to be already upper-case, as the FITS library stores them.
Foreign calls are not modelled; "## Left out" lists them.

The checker has exactly two checks: whether extension 0's header holds `CTYPE1`, and whether
extension 0 has data (meant to return false when it has none; as written it raises
`AttributeError` instead, see "## Findings"). It does not synthesise `EXTNAME`, check `CUNIT` cards, or collect the
checks' results into a report.

## Model

| member | source | states |
|---|---|---|
| `Replace.NoOccurrenceUnchanged` | ifucube/ifucube.py:90 | `replace` returns a string unchanged when the non-empty bad token does not occur in it |
| `Replace.ReplaceLength` | ifucube/ifucube.py:90 | every replaced occurrence trades `len(bad)` characters for `len(good)`; no other character is added or lost |
| `Replace.CountPositiveIffOccurs` | ifucube/ifucube.py:90 | the left-to-right scan replaces at least once exactly when the bad token occurs |
| `Replace.SameLengthChangesIffOccurs` | ifucube/ifucube.py:90 | replacing with a different token of the same length (`METER`→`meter`) changes the string exactly when the bad token occurs |
| `Units.NormalizeSixReplaces` | ifucube/ifucube.py:13-20 | the setter applies `Ang→A`, `Spaxel→pixel`, `spaxel→pixel`, `Counts→count`, `COUNTS→count`, `METER→meter` in that order, each as a full replace of the previous output |
| `Units.EmptyEntrySkipped` | ifucube/ifucube.py:85-87 | an entry with an empty bad token, anywhere in the table, has no effect on the result |
| `Units.EmptyTokenGuarded` | ifucube/ifucube.py:86-87 | the skip matters: without it, `replace('', good)` would put the good token around every character |
| `Units.NormalizeNotLonger` | ifucube/ifucube.py:85-90 | a table whose good tokens are never longer than their bad tokens never lengthens the string |
| `Units.UnchangedIffNoBadToken` | ifucube/ifucube.py:85-90 | for a table that is shrinking (no good token longer than its bad token) and detecting (each non-empty entry strictly shortens what it matches, except that the last may swap in a different token of the same length), the loop leaves a string unchanged exactly when none of the non-empty bad tokens occurs in it |
| `Units.NormalizeUnchangedIffClean` | ifucube/ifucube.py:13-20 | a unit string comes back unchanged exactly when it contains none of the six bad tokens |
| `Units.NormalizeNeverLonger` | ifucube/ifucube.py:13-20 | the normalised unit string is never longer than the input |
| `Units.NormalizeNotIdempotent` | ifucube/ifucube.py:85-90 | normalising is not idempotent: `"AAngng"` becomes `"AAng"`, and a second pass gives `"AA"` |
| `Cubes.InitName` | ifucube/ifucube.py:62 | a falsy name (`''` or `0`) becomes `''`; a string is kept as given; a non-zero integer is refused by the `Unicode` trait |
| `Cubes.SetUnit` | ifucube/ifucube.py:79-94 | a string unit is stored normalised and no longer than given; an integer raises `AttributeError` at `replace` |
| `Cubes.NewCube` | ifucube/ifucube.py:60-66 | `__init__` succeeds exactly when the name and unit are accepted; a bad name is reported before the unit is looked at |
| `Cubes.ConstructFromHdu` | ifucube/ifucube.py:42-47 | name = `EXTNAME` or `''`; unit = normalised `BUNIT` or `''`; data = the extension's data; `other_header` = the whole header; it fails exactly when the name is a non-zero integer or `BUNIT` is not a string |
| `Cubes.ShapeRepr` | ifucube/ifucube.py:129-131 | Python's `repr` of a shape tuple is parenthesised: `()` for no axis, `(<n>,)` for one, `(<a>, <b>, <c>)` for three, each length in decimal |
| `Cubes.CubeStr` | ifucube/ifucube.py:128-132 | the effective `__str__` succeeds exactly when the cube has data, raising `AttributeError` otherwise; it is `IFUCube <name> ` followed by the shape tuple |
| `Cubes.CubeStrThreeAxes` | ifucube/ifucube.py:128-132 | a cube with 3D data prints as `IFUCube <name> (<a>, <b>, <c>)` with its three axis lengths in decimal |
| `Cubes.SampleCubeStr` | ifucube/ifucube.py:128-132 | a (2048, 17, 17) cube renders as `IFUCube <name> (2048, 17, 17)` |
| `Text.NatStr` | ifucube/ifucubelist.py:32 | `str(n)` is a canonical run of decimal digits (no leading zero) that denotes `n` |
| `Text.JoinAppend` | ifucube/ifucubelist.py:32 | `', '.join` of one more part is the previous join, the separator and that part |
| `Text.JoinStartsWithFirst` | ifucube/ifucubelist.py:32 | a join of at least one part begins with its first part |
| `Text.JoinThree` | ifucube/ifucube.py:129-131 | three parts are joined with two separators, between them and nowhere else |
| `CubeList.CubeIndicesSound` | ifucube/ifucubelist.py:23-24 | every extension `read` selects is in range and has present, 3D data |
| `CubeList.CubeIndicesComplete` | ifucube/ifucubelist.py:23-24 | no extension with present, 3D data is skipped |
| `CubeList.CubeIndicesIncreasing` | ifucube/ifucubelist.py:23-27 | the selected extensions keep their file order |
| `CubeList.Read` | ifucube/ifucubelist.py:17-29 | `read` yields one cube per selected extension, in order and at most one per extension, each built from its extension and carrying its data shape; it fails with the error of the first selected extension that cannot be built |
| `CubeList.ListStr` | ifucube/ifucubelist.py:31-32 | `__str__` fails exactly when some cube has no data; otherwise it is `[` + the numbered entries joined by `', '` + `]`, and `[]` for an empty list |
| `CubeList.EntriesAppend` | ifucube/ifucubelist.py:32 | numbering one more cube appends exactly one entry, `<n>. <cube>` with `n` the previous count, and leaves the others alone |
| `CubeList.ListStrSnoc` | ifucube/ifucubelist.py:31-32 | a list with one more cube (all with data) prints as `[` + the old entries and `<n>. <cube>` joined by `', '` + `]`, with `n` the old count |
| `CubeList.ListStrAppend` | ifucube/ifucubelist.py:31-32 | appending a cube to a non-empty list inserts `, <n>. <cube>` just before the closing bracket and changes nothing else |
| `CubeList.Entries` | ifucube/ifucubelist.py:32 | entry `j` is `str(j)` + `'. '` + the cube's string, counting from 0 |
| `CubeList.ReadSample` | ifucube/tests/test_loading.py:9-19 | for a file of a data-less primary, a (2048, 17, 17) cube, a 1D extension and another (2048, 17, 17) cube, `read` yields exactly 2 cubes, both of shape (2048, 17, 17) |
| `CubeList.SampleListStr` | ifucube/ifucubelist.py:32 | two (2048, 17, 17) cubes render as `[0. IFUCube a (2048, 17, 17), 1. IFUCube b (2048, 17, 17)]` |
| `Checker.CheckCtype` | ifucube.py:72-94 | returns false exactly when `CTYPE1` is missing from extension 0. With `fix` it then sets `CTYPE1` to the integer 0. Otherwise the file is unchanged. Nothing but that one key of extension 0 ever changes. A file with no extension raises `IndexError` |
| `Checker.CheckCtypeFixSettles` | ifucube.py:83-94 | running `check_ctype` with `fix` a second time returns true and changes nothing |
| `Checker.CheckDataAsWritten` | ifucube.py:59-70 | as written, `check_data` never returns false: on a missing array it raises `AttributeError` |
| `Checker.CheckData` | ifucube.py:48-70 | `check_data` returns false exactly when extension 0 has no data; `fix` does not change the result; the file is never changed |
| `Checker.CheckDataMissingArray` | ifucube.py:59-68 | on a header-only extension 0, the written check raises where the intended one returns false |
| `Ordering.SortBySorted` | ifucube.py:40-41 | the names `dir()` lists come out sorted in Python string order |
| `Ordering.SortByPermutation` | ifucube.py:40-41 | sorting neither drops nor duplicates a member: the result is a permutation of the input |
| `Ordering.FilterPrefix` | ifucube.py:40-43 | an element is kept exactly when it is in the input and its name starts with `check_`; a sorted input gives a sorted result |
| `Ordering.FilterPrefixCount` | ifucube.py:40-43 | each element whose name starts with `check_` is kept as many times as it occurs in the input, and every other element is dropped |
| `Ordering.FilterPrefixAppend` | ifucube.py:40-43 | filtering a concatenation is concatenating the filtered parts, so kept elements stay in their input order |
| `Checker.CheckMethods` | ifucube.py:40-43 | `check` collects the `check_*` members in sorted order, each as many times as the member list holds it (once for a list without repeats), and no other member |
| `Checker.CheckMethodsOfChecker` | ifucube.py:40-46 | for this class that is `check_ctype` then `check_data`, each once |
| `Checker.RunChecks` | ifucube.py:45-46 | the methods entered are a prefix of the list, all of it unless an exception stopped the run; a method that raises is the last one entered |
| `Checker.RunChecksAppend` | ifucube.py:45-46 | running two lists in sequence is running the first, then, unless it raised, the second on the file the first left |
| `Checker.CheckRunsBoth` | ifucube.py:40-46 | with the intended `check_data`: on a file with an extension, `check` runs both checks whatever they return, raises nothing, and the only change left is `check_ctype`'s fix |
| `Checker.CheckAsWrittenRaises` | ifucube.py:40-46 | with `check_data` as written: on a file whose extension 0 has no data array, `check` enters both checks, keeps `check_ctype`'s fix and then raises `AttributeError` |
| `Checker.CheckAsWrittenAgrees` | ifucube.py:40-46 | when extension 0 has a data array, `check` as written behaves exactly as with the intended `check_data` |
| `Checker.CheckEmptyFile` | ifucube.py:40-46 | on a file with no extension, `check_ctype` raises `IndexError` and `check_data` is never entered, with either `check_data` |

## Findings

| source | as written | input that shows it | evidently intended | confidence | as-written member | corrected member |
|---|---|---|---|---|---|---|
| ifucube.py:59-68 | `if not hasattr(fits_file[0], 'data')` guards the "no data" branch. A FITS HDU always has a `data` attribute, which is `None` when there is no array. So the else branch runs and formats `fits_file[0].data.shape` on `None` | a file whose extension 0 is a header-only primary HDU | return `False` and warn that data does not exist | medium: not executed; it rests on FITS HDUs always exposing `data` (the list reader compares `hdu.data` with `None` for this reason) | `Checker.CheckDataAsWritten` (shown by `Checker.CheckDataMissingArray`) | `Checker.CheckData` |

`Checker.Check` runs the corrected `check_data`; `Checker.CheckAsWritten` runs it as written, and `Checker.CheckAsWrittenRaises` shows the run that raises.

## Left out

- `ifucube/wavelength.py`: a wrapper over a WCS library with floating-point results. Its other three classes are empty placeholders. This also leaves out the wavelength assertions of the loading test.
- The `Wavelength.constructFromHDU(hdu)` call in `constructFromHDU`: a foreign call, and its possible failure is not modelled.
- `u.Unit(...)`: parsing of the normalised string is a foreign call. A cube's unit is the normalised string, and unit-parse failures are not modelled.
- `Units.Normalize`: does not claim that no bad token remains or that the result is idempotent, because neither holds (`Units.NormalizeNotIdempotent`).
- `fits.open`, `os.path.isfile` and the early returns of `check` (ifucube.py:26-37): file I/O. The model starts from an already-opened file.
- Checker.CheckRunsBoth: states `check` with the corrected `check_data`; as written, a file whose extension 0 has no data array makes `check` raise instead (`Checker.CheckAsWrittenRaises`).
- `check` returns `None` and writes nothing back. The model returns the in-memory file as the checks leave it, plus the list of methods entered.
- `print` and logging: no behavioural content.
- The traitlets `Instance(u.UnitBase)` and `Dict` validation: only the `Unicode` check on the name is modelled.
- `constructFromASDF`: a stub with placeholder values.
- The first `__str__` (ifucube/ifucube.py:68-71): the later definition overrides it. `__repr__` only delegates to `__str__`.
- Header values other than integers and strings (floats, booleans), and case-insensitive keyword lookup.
- The contents of data arrays: only their shapes are modelled.
- `dir()` also lists inherited members such as `__class__`. None of them starts with `check_`, and `Checker.CheckMethods` holds for any member list, so the model lists only the class's own methods.
- `setup.py` and `runme.py`: packaging and command-line glue.

=== FILE: checker.dfy ===
/** The header checker `IFUCube.check` and its `check_*` methods (top-level ifucube.py). */
module Checker {
  import opened Results
  import opened Fits
  import opened Ordering

  /** The key `check_ctype` looks for in the first extension's header. */
  const CtypeKey := "CTYPE1"

  /** What a `check_*` method returns, together with the file as it leaves the method. */
  datatype Checked = Checked(good: bool, file: File)

  /** The file differs from `f` at most in `key` of extension `at`'s header. */
  predicate OnlyKeyChanged(f: File, f': File, at: nat, key: string) {
    |f'| == |f| && at < |f| &&
    (forall i :: 0 <= i < |f| && i != at ==> f'[i] == f[i]) &&
    f'[at].data == f[at].data &&
    f'[at].header - {key} == f[at].header - {key}
  }

  /** `check_ctype`: false exactly when `CTYPE1` is missing from extension 0; with `fix` it is then
      set to the integer 0. */
  function CheckCtype(file: File, fix: bool): (r: Result<Checked>)
    ensures r.Err? <==> |file| == 0
    ensures r.Err? ==> r.error == IndexError
    ensures r.Ok? ==> (r.value.good <==> CtypeKey in file[0].header)
    ensures r.Ok? ==> OnlyKeyChanged(file, r.value.file, 0, CtypeKey)
    ensures r.Ok? && (!fix || r.value.good) ==> r.value.file == file
    ensures r.Ok? && fix && !r.value.good ==>
      CtypeKey in r.value.file[0].header && r.value.file[0].header[CtypeKey] == Int(0)
  {
    if |file| == 0 then Err(IndexError)
    else if CtypeKey !in file[0].header then
      var fixed := if fix then file[0 := file[0].(header := file[0].header[CtypeKey := Int(0)])] else file;
      Ok(Checked(false, fixed))
    else
      Ok(Checked(true, file))
  }

  /** Running `check_ctype` with `fix` a second time reports success and changes nothing. */
  lemma CheckCtypeFixSettles(file: File)
    requires |file| > 0
    ensures CheckCtype(CheckCtype(file, true).value.file, true) == Ok(Checked(true, CheckCtype(file, true).value.file))
  {
  }

  /** `check_data` as written: `hasattr(hdu, 'data')` holds for every HDU, so a missing array is
      reached through `data.shape` on `None`, which raises instead of reporting false. */
  function CheckDataAsWritten(file: File, fix: bool): (r: Result<Checked>)
    ensures r.Err? <==> |file| == 0 || file[0].data.None?
    ensures |file| == 0 ==> r == Err(IndexError)
    ensures |file| > 0 && file[0].data.None? ==> r == Err(AttributeError)
    ensures r.Ok? ==> r.value == Checked(true, file)
  {
    if |file| == 0 then Err(IndexError)
    else
      match file[0].data
      case None => Err(AttributeError)
      case Some(_) => Ok(Checked(true, file))
  }

  /** `check_data` as intended: false exactly when extension 0 has no data, whatever `fix` says
      (missing data cannot be fixed); the file is never changed. */
  function CheckData(file: File, fix: bool): (r: Result<Checked>)
    ensures r.Err? <==> |file| == 0
    ensures r.Err? ==> r.error == IndexError
    ensures r.Ok? ==> r.value.file == file && (r.value.good <==> file[0].data.Some?)
  {
    if |file| == 0 then Err(IndexError)
    else if file[0].data.None? then
      // With `fix`, `check_data` returns `False` early: the same verdict.
      Ok(Checked(false, file))
    else
      Ok(Checked(true, file))
  }

  /** A primary extension without data makes the written check raise where the intended one reports false. */
  lemma CheckDataMissingArray(h: Header, fix: bool)
    ensures CheckDataAsWritten([Extension(h, None)], fix) == Err(AttributeError)
    ensures CheckData([Extension(h, None)], fix) == Ok(Checked(false, [Extension(h, None)]))
  {
  }

  /** The callable members of the checker class, in the order the class body defines them. */
  datatype CheckerMember = InitMember | CheckMember | CheckDataMember | CheckCtypeMember

  function MemberName(m: CheckerMember): string {
    match m
    case InitMember => "__init__"
    case CheckMember => "check"
    case CheckDataMember => "check_data"
    case CheckCtypeMember => "check_ctype"
  }

  const CheckerMembers: seq<CheckerMember> := [InitMember, CheckMember, CheckDataMember, CheckCtypeMember]

  /** The methods `check` collects: `dir()` lists member names sorted, and those starting with
      `check_` are kept in that order. */
  function CheckMethods(members: seq<CheckerMember>): (r: seq<CheckerMember>)
    ensures SortedBy(r, MemberName)
    ensures forall m :: m in r <==> m in members && HasPrefix(MemberName(m), "check_")
    ensures forall m :: multiset(r)[m] == (if HasPrefix(MemberName(m), "check_") then multiset(members)[m] else 0)
  {
    var sorted := SortBy(members, MemberName);
    SortBySorted(members, MemberName);
    SortByPermutation(members, MemberName);
    FilterPrefixCount(sorted, MemberName, "check_");
    assert forall m :: m in sorted <==> m in members by {
      forall m ensures m in sorted <==> m in members {
        assert m in sorted <==> m in multiset(sorted);
        assert m in members <==> m in multiset(members);
      }
    }
    FilterPrefix(sorted, MemberName, "check_")
  }

  /** For this class that is `check_ctype`, then `check_data`, each once. */
  lemma CheckMethodsOfChecker()
    ensures CheckMethods(CheckerMembers) == [CheckCtypeMember, CheckDataMember]
  {
    SortedMembers();
    FilterMembers();
  }

  lemma NotCheckMethods()
    ensures !HasPrefix(MemberName(InitMember), "check_") && !HasPrefix(MemberName(CheckMember), "check_")
  {
    assert "__init__"[..6][0] != "check_"[0];
  }

  lemma CheckPrefixes()
    ensures HasPrefix(MemberName(CheckCtypeMember), "check_") && HasPrefix(MemberName(CheckDataMember), "check_")
  {
    assert "check_ctype"[..6] == "check_";
    assert "check_data"[..6] == "check_";
  }

  lemma FilterMembers()
    ensures FilterPrefix([InitMember, CheckMember, CheckCtypeMember, CheckDataMember], MemberName, "check_")
         == [CheckCtypeMember, CheckDataMember]
  {
    FilterTail();
    NotCheckMethods();
    var s4 := [InitMember, CheckMember, CheckCtypeMember, CheckDataMember];
    assert s4[1..] == [CheckMember, CheckCtypeMember, CheckDataMember];
    assert s4[1..][1..] == [CheckCtypeMember, CheckDataMember];
  }

  lemma FilterTail()
    ensures FilterPrefix([CheckCtypeMember, CheckDataMember], MemberName, "check_") == [CheckCtypeMember, CheckDataMember]
  {
    CheckPrefixes();
    var s2 := [CheckCtypeMember, CheckDataMember];
    assert s2[1..] == [CheckDataMember];
    assert s2[1..][1..] == [];
  }

  /** `dir()` order of the class's members. */
  lemma SortedMembers()
    ensures SortBy(CheckerMembers, MemberName) == [InitMember, CheckMember, CheckCtypeMember, CheckDataMember]
  {
    CheckSortsAfterInit();
    CheckCtypeSortsAfterCheck();
    CheckDataSortsAfterCheckCtype();
    SortLastTwoSwapped(InitMember, CheckMember, CheckDataMember, CheckCtypeMember, MemberName);
  }

  /** Strings sharing a prefix compare as their remainders do. */
  lemma {:induction false} LessEqCommonPrefix(p: string, a: string, b: string)
    ensures LessEq(p + a, p + b) == LessEq(a, b)
    decreases |p|
  {
    if |p| > 0 {
      assert (p + a)[0] == p[0] == (p + b)[0];
      assert (p + a)[1..] == p[1..] + a;
      assert (p + b)[1..] == p[1..] + b;
      LessEqCommonPrefix(p[1..], a, b);
    } else {
      assert p + a == a && p + b == b;
    }
  }

  lemma CheckSortsAfterInit()
    ensures LessEq("__init__", "check") && !LessEq("check", "__init__")
  {
  }

  lemma CheckCtypeSortsAfterCheck()
    ensures LessEq("check", "check_ctype") && !LessEq("check_ctype", "check")
  {
    LessEqCommonPrefix("check", "", "_ctype");
    LessEqCommonPrefix("check", "_ctype", "");
    assert "check" + "" == "check" && "check" + "_ctype" == "check_ctype";
  }

  lemma CheckDataSortsAfterCheckCtype()
    ensures LessEq("check_ctype", "check_data") && !LessEq("check_data", "check_ctype")
  {
    LessEqCommonPrefix("check_", "ctype", "data");
    LessEqCommonPrefix("check_", "data", "ctype");
    assert "check_" + "ctype" == "check_ctype" && "check_" + "data" == "check_data";
  }

  /** The members whose name starts with `check_`. */
  predicate IsCheckMethod(m: CheckerMember) {
    m.CheckCtypeMember? || m.CheckDataMember?
  }

  lemma IsCheckMethodByName(m: CheckerMember)
    ensures IsCheckMethod(m) <==> HasPrefix(MemberName(m), "check_")
  {
    NotCheckMethods();
    CheckPrefixes();
  }

  /** Call one `check_*` method by member; `asWritten` selects `check_data` as written rather
      than as intended. */
  function Invoke(m: CheckerMember, file: File, fix: bool, asWritten: bool): Result<Checked>
    requires IsCheckMethod(m)
  {
    match m
    case CheckCtypeMember => CheckCtype(file, fix)
    case CheckDataMember => if asWritten then CheckDataAsWritten(file, fix) else CheckData(file, fix)
  }

  /** What a run of `check` leaves behind: the methods it entered, the in-memory file and the
      exception that ended it, if any. The methods' boolean results are not kept. */
  datatype Run = Run(invoked: seq<CheckerMember>, file: File, raised: Option<PyError>)

  predicate AllCheckMethods(methods: seq<CheckerMember>) {
    forall j :: 0 <= j < |methods| ==> IsCheckMethod(methods[j])
  }

  /** Call each method in turn on the file the previous one left, stopping at an exception. */
  function RunChecks(methods: seq<CheckerMember>, file: File, fix: bool, asWritten: bool): (r: Run)
    requires AllCheckMethods(methods)
    ensures r.raised.None? ==> r.invoked == methods
    ensures |r.invoked| <= |methods| && r.invoked == methods[..|r.invoked|]
    ensures |methods| > 0 ==> |r.invoked| > 0
    ensures |methods| > 0 && Invoke(methods[0], file, fix, asWritten).Err? ==>
      r == Run([methods[0]], file, Some(Invoke(methods[0], file, fix, asWritten).error))
    decreases |methods|
  {
    if |methods| == 0 then Run([], file, None)
    else
      match Invoke(methods[0], file, fix, asWritten)
      case Err(e) => Run([methods[0]], file, Some(e))
      case Ok(c) =>
        var rest := RunChecks(methods[1..], c.file, fix, asWritten);
        Run([methods[0]] + rest.invoked, rest.file, rest.raised)
  }

  lemma AllCheckMethodsSplit(first: seq<CheckerMember>, second: seq<CheckerMember>)
    ensures AllCheckMethods(first + second) <==> AllCheckMethods(first) && AllCheckMethods(second)
  {
    var all := first + second;
    if AllCheckMethods(all) {
      forall j | 0 <= j < |first| ensures IsCheckMethod(first[j]) { assert all[j] == first[j]; }
      forall j | 0 <= j < |second| ensures IsCheckMethod(second[j]) { assert all[j + |first|] == second[j]; }
    }
    if AllCheckMethods(first) && AllCheckMethods(second) {
      forall j | 0 <= j < |all| ensures IsCheckMethod(all[j]) {
        if j < |first| { assert all[j] == first[j]; } else { assert all[j] == second[j - |first|]; }
      }
    }
  }

  /** One step of `RunChecks`: the first method is entered, and the rest run only if it returned. */
  lemma RunChecksStep(methods: seq<CheckerMember>, file: File, fix: bool, asWritten: bool)
    requires |methods| > 0 && AllCheckMethods(methods)
    ensures AllCheckMethods(methods[1..])
    ensures var inv := Invoke(methods[0], file, fix, asWritten);
      RunChecks(methods, file, fix, asWritten) ==
        if inv.Err? then Run([methods[0]], file, Some(inv.error))
        else
          var rest := RunChecks(methods[1..], inv.value.file, fix, asWritten);
          Run([methods[0]] + rest.invoked, rest.file, rest.raised)
  {
    assert forall j :: 0 <= j < |methods[1..]| ==> methods[1..][j] == methods[j + 1];
  }

  /** Running `first` then `second`: the second list starts on the file the first one left, and
      is not entered at all when the first one raised. */
  lemma {:induction false} RunChecksAppend(first: seq<CheckerMember>, second: seq<CheckerMember>, file: File,
                                           fix: bool, asWritten: bool)
    requires AllCheckMethods(first) && AllCheckMethods(second)
    ensures AllCheckMethods(first + second)
    ensures var r1 := RunChecks(first, file, fix, asWritten);
      RunChecks(first + second, file, fix, asWritten) ==
        if r1.raised.Some? then r1
        else
          var r2 := RunChecks(second, r1.file, fix, asWritten);
          Run(r1.invoked + r2.invoked, r2.file, r2.raised)
    decreases |first|
  {
    AllCheckMethodsSplit(first, second);
    var all := first + second;
    if |first| == 0 {
      assert all == second;
    } else {
      assert all[0] == first[0] && all[1..] == first[1..] + second;
      RunChecksStep(first, file, fix, asWritten);
      RunChecksStep(all, file, fix, asWritten);
      var inv := Invoke(first[0], file, fix, asWritten);
      if inv.Ok? {
        var f := inv.value.file;
        RunChecksAppend(first[1..], second, f, fix, asWritten);
        var r1 := RunChecks(first[1..], f, fix, asWritten);
        if r1.raised.None? {
          var r2 := RunChecks(second, r1.file, fix, asWritten);
          assert [first[0]] + (r1.invoked + r2.invoked) == ([first[0]] + r1.invoked) + r2.invoked;
        }
      }
    }
  }

  /** The methods `check` runs on this class, all of them `check_*` methods. */
  function CheckerCheckMethods(): (r: seq<CheckerMember>)
    ensures AllCheckMethods(r)
  {
    var methods := CheckMethods(CheckerMembers);
    assert AllCheckMethods(methods) by {
      forall j | 0 <= j < |methods| ensures IsCheckMethod(methods[j]) {
        assert methods[j] in methods;
        IsCheckMethodByName(methods[j]);
      }
    }
    methods
  }

  /** `IFUCube.check` once the file is open, with `check_data` as intended. */
  function Check(file: File, fix: bool): Run {
    RunChecks(CheckerCheckMethods(), file, fix, false)
  }

  /** `IFUCube.check` once the file is open, with `check_data` as written. */
  function CheckAsWritten(file: File, fix: bool): Run {
    RunChecks(CheckerCheckMethods(), file, fix, true)
  }

  /** The file as `check_ctype` leaves it: `CTYPE1 = 0` added to extension 0 when fixing and missing. */
  function AfterCtype(file: File, fix: bool): File
    requires |file| > 0
  {
    if fix && CtypeKey !in file[0].header
    then file[0 := Extension(file[0].header[CtypeKey := Int(0)], file[0].data)]
    else file
  }

  /** On a file with an extension, `check` with the intended `check_data` runs `check_ctype` then
      `check_data` whatever they return, and only `check_ctype`'s fix remains. */
  lemma CheckRunsBoth(file: File, fix: bool)
    requires |file| > 0
    ensures Check(file, fix) == Run([CheckCtypeMember, CheckDataMember], AfterCtype(file, fix), None)
  {
    CheckMethodsOfChecker();
    RunBoth(file, fix, false);
  }

  /** As written, `check` on a file whose extension 0 has no data array enters both methods,
      keeps `check_ctype`'s fix in memory and then raises `AttributeError` in `check_data`. */
  lemma CheckAsWrittenRaises(file: File, fix: bool)
    requires |file| > 0 && file[0].data.None?
    ensures CheckAsWritten(file, fix) ==
      Run([CheckCtypeMember, CheckDataMember], AfterCtype(file, fix), Some(AttributeError))
  {
    CheckMethodsOfChecker();
    RunBoth(file, fix, true);
  }

  /** When extension 0 has a data array, `check` as written and as intended agree. */
  lemma CheckAsWrittenAgrees(file: File, fix: bool)
    requires |file| > 0 && file[0].data.Some?
    ensures CheckAsWritten(file, fix) == Check(file, fix)
  {
    CheckMethodsOfChecker();
    RunBoth(file, fix, true);
    RunBoth(file, fix, false);
  }

  lemma RunBoth(file: File, fix: bool, asWritten: bool)
    requires |file| > 0
    ensures RunChecks([CheckCtypeMember, CheckDataMember], file, fix, asWritten) ==
      Run([CheckCtypeMember, CheckDataMember], AfterCtype(file, fix),
          if asWritten && file[0].data.None? then Some(AttributeError) else None)
  {
    var ms := [CheckCtypeMember, CheckDataMember];
    assert ms[1..] == [CheckDataMember];
    assert ms[1..][1..] == [];
  }

  /** On a file with no extension, `check_ctype` raises and `check_data` is never reached. */
  lemma CheckEmptyFile(fix: bool)
    ensures Check([], fix) == Run([CheckCtypeMember], [], Some(IndexError))
    ensures CheckAsWritten([], fix) == Run([CheckCtypeMember], [], Some(IndexError))
  {
    CheckMethodsOfChecker();
  }
}

=== FILE: cubelist.dfy ===
/** `IFUList`: the cubes of a file, one per extension holding 3D data (ifucube/ifucubelist.py). */
module CubeList {
  import opened Results
  import opened Fits
  import opened Cubes
  import opened Text

  /** The positions of the extensions whose data is present and 3D, in file order. */
  function CubeIndices(file: File): (idx: seq<nat>)
    ensures |idx| <= |file|
    ensures forall j :: 0 <= j < |idx| ==> idx[j] < |file|
  {
    if |file| == 0 then []
    else
      var rest := CubeIndices(file[..|file| - 1]);
      if IsCube(file[|file| - 1]) then rest + [|file| - 1] else rest
  }

  /** Every selected position is in range and holds 3D data. */
  lemma {:induction false} CubeIndicesSound(file: File)
    ensures forall j :: 0 <= j < |CubeIndices(file)| ==>
      CubeIndices(file)[j] < |file| && IsCube(file[CubeIndices(file)[j]])
  {
    if |file| > 0 {
      var prefix := file[..|file| - 1];
      CubeIndicesSound(prefix);
    }
  }

  /** Selected positions keep the file's order. */
  lemma {:induction false} CubeIndicesIncreasing(file: File)
    ensures forall j, k :: 0 <= j < k < |CubeIndices(file)| ==> CubeIndices(file)[j] < CubeIndices(file)[k]
  {
    if |file| > 0 {
      var prefix := file[..|file| - 1];
      CubeIndicesIncreasing(prefix);
      CubeIndicesSound(prefix);
    }
  }

  /** No extension holding 3D data is skipped. */
  lemma {:induction false} CubeIndicesComplete(file: File)
    ensures forall i :: 0 <= i < |file| && IsCube(file[i]) ==> i in CubeIndices(file)
  {
    if |file| > 0 {
      var prefix := file[..|file| - 1];
      CubeIndicesComplete(prefix);
      forall i | 0 <= i < |file| - 1 && IsCube(file[i]) ensures i in CubeIndices(file) {
        assert prefix[i] == file[i];
      }
    }
  }

  /** The first extension that `constructFromHDU` rejects, as a position in `CubeIndices`. */
  predicate FailsFirstAt(file: File, j: nat, e: PyError) {
    var idx := CubeIndices(file);
    j < |idx| && ConstructFromHdu(file[idx[j]]) == Err(e) &&
    forall k :: 0 <= k < j ==> ConstructFromHdu(file[idx[k]]).Ok?
  }

  /** `cubes` are the cubes built from the 3D extensions among the first `i` ones. */
  predicate BuiltUpTo(file: File, i: nat, cubes: seq<Cube>) {
    i <= |file| &&
    var idx := CubeIndices(file[..i]);
    |cubes| == |idx| &&
    forall j :: 0 <= j < |cubes| ==> idx[j] < i && ConstructFromHdu(file[idx[j]]) == Ok(cubes[j])
  }

  /** `IFUList.read` on an opened file: in file order, every extension with 3D data becomes a
      cube; the others are skipped; the first cube that cannot be built raises. */
  method Read(file: File) returns (r: Result<seq<Cube>>)
    ensures r.Ok? <==> forall j :: 0 <= j < |CubeIndices(file)| ==> ConstructFromHdu(file[CubeIndices(file)[j]]).Ok?
    ensures r.Ok? ==> |r.value| == |CubeIndices(file)| <= |file|
    ensures r.Ok? ==> forall j :: 0 <= j < |r.value| ==>
      ConstructFromHdu(file[CubeIndices(file)[j]]) == Ok(r.value[j]) && r.value[j].data == file[CubeIndices(file)[j]].data
    ensures r.Err? ==> exists j: nat :: FailsFirstAt(file, j, r.error)
  {
    var cubes: seq<Cube> := [];
    var i := 0;
    while i < |file|
      invariant BuiltUpTo(file, i, cubes)
    {
      if IsCube(file[i]) {
        var c := ConstructFromHdu(file[i]);
        if c.Err? {
          FirstFailure(file, i, cubes);
          ghost var j := |cubes|;
          assert FailsFirstAt(file, j, c.error);
          assert !ConstructFromHdu(file[CubeIndices(file)[j]]).Ok?;
          return Err(c.error);
        }
        BuiltStep(file, i, cubes, c.value);
        cubes := cubes + [c.value];
      } else {
        BuiltStep(file, i, cubes, Cube("", None, "", map[]));
      }
      i := i + 1;
    }
    assert file[..i] == file;
    r := Ok(cubes);
  }

  lemma BuiltStep(file: File, i: nat, cubes: seq<Cube>, c: Cube)
    requires i < |file| && BuiltUpTo(file, i, cubes)
    requires IsCube(file[i]) ==> ConstructFromHdu(file[i]) == Ok(c)
    ensures BuiltUpTo(file, i + 1, if IsCube(file[i]) then cubes + [c] else cubes)
  {
    CubeIndicesSnoc(file, i);
    var idx, idx' := CubeIndices(file[..i]), CubeIndices(file[..i + 1]);
    var cubes' := if IsCube(file[i]) then cubes + [c] else cubes;
    assert |cubes'| == |idx'|;
    forall j | 0 <= j < |cubes'|
      ensures idx'[j] < i + 1 && ConstructFromHdu(file[idx'[j]]) == Ok(cubes'[j])
    {
      if j < |cubes| {
        assert idx'[j] == idx[j] && cubes'[j] == cubes[j];
      } else {
        assert idx'[j] == i && cubes'[j] == c;
      }
    }
  }

  lemma FirstFailure(file: File, i: nat, cubes: seq<Cube>)
    requires i < |file| && BuiltUpTo(file, i, cubes)
    requires IsCube(file[i]) && ConstructFromHdu(file[i]).Err?
    ensures FailsFirstAt(file, |cubes|, ConstructFromHdu(file[i]).error)
  {
    var idx, before := CubeIndices(file), CubeIndices(file[..i]);
    SelectedAt(file, i);
    forall k | 0 <= k < |cubes|
      ensures ConstructFromHdu(file[idx[k]]).Ok?
    {
      assert idx[k] == before[k];
    }
  }

  /** A 3D extension at `i` is selected right after the ones selected before it. */
  lemma SelectedAt(file: File, i: nat)
    requires i < |file| && IsCube(file[i])
    ensures |CubeIndices(file[..i])| < |CubeIndices(file)|
    ensures CubeIndices(file)[|CubeIndices(file[..i])|] == i
    ensures forall k :: 0 <= k < |CubeIndices(file[..i])| ==> CubeIndices(file)[k] == CubeIndices(file[..i])[k]
  {
    var idx, before := CubeIndices(file), CubeIndices(file[..i]);
    CubeIndicesSnoc(file, i);
    SelectedPrefix(file, i + 1);
    assert before + [i] == idx[..|before| + 1];
  }

  /** Extending a prefix of the file by one extension appends its index when it holds 3D data. */
  lemma CubeIndicesSnoc(file: File, i: nat)
    requires i < |file|
    ensures CubeIndices(file[..i + 1]) == CubeIndices(file[..i]) + (if IsCube(file[i]) then [i] else [])
  {
    assert file[..i + 1][..i] == file[..i];
  }

  /** The indices selected in a prefix of the file are the first ones selected in the whole file. */
  lemma {:induction false} SelectedPrefix(file: File, n: nat)
    requires n <= |file|
    ensures |CubeIndices(file[..n])| <= |CubeIndices(file)|
    ensures CubeIndices(file[..n]) == CubeIndices(file)[..|CubeIndices(file[..n])|]
    decreases |file| - n
  {
    if n < |file| {
      SelectedPrefix(file, n + 1);
      CubeIndicesSnoc(file, n);
      var small, big := CubeIndices(file[..n]), CubeIndices(file[..n + 1]);
      assert small == big[..|small|];
    } else {
      assert file[..n] == file;
    }
  }

  /** `IFUList.__str__`: `[0. <cube>, 1. <cube>, ...]`. */
  function ListStr(cubes: seq<Cube>): (r: Result<string>)
    ensures r.Ok? <==> forall j :: 0 <= j < |cubes| ==> cubes[j].data.Some?
    ensures |cubes| == 0 ==> r == Ok("[]")
    ensures r.Ok? ==> |r.value| >= 2 && r.value[0] == '[' && r.value[|r.value| - 1] == ']'
    ensures r.Ok? ==> r.value == "[" + Join(", ", Entries(cubes).value) + "]"
  {
    var entries :- Entries(cubes);
    assert |entries| == 0 ==> "[" + Join(", ", entries) + "]" == "[]";
    Ok("[" + Join(", ", entries) + "]")
  }

  /** The entries of the list's string form, `<j>. <cube j>`. Built from the last cube back;
      every failure is the same `AttributeError`, so the verdict is the one of Python's
      left-to-right enumeration. */
  function Entries(cubes: seq<Cube>): (r: Result<seq<string>>)
    ensures r.Ok? <==> forall j :: 0 <= j < |cubes| ==> cubes[j].data.Some?
    ensures r.Ok? ==> |r.value| == |cubes| && forall j {:trigger r.value[j]} :: 0 <= j < |cubes| ==>
      r.value[j] == NatStr(j) + ". " + CubeStr(cubes[j]).value
    decreases |cubes|
  {
    if |cubes| == 0 then Ok([])
    else
      var pre := cubes[..|cubes| - 1];
      AllDataSnoc(pre, cubes);
      var init :- Entries(pre);
      var last :- CubeStr(cubes[|cubes| - 1]);
      var item := NatStr(|cubes| - 1) + ". " + last;
      EntriesSnoc(cubes, init, item);
      Ok(init + [item])
  }

  /** Appending the last cube's entry to the numbered entries of the others numbers them all. */
  lemma EntriesSnoc(cubes: seq<Cube>, init: seq<string>, item: string)
    requires |cubes| > 0 && |init| == |cubes| - 1
    requires forall j :: 0 <= j < |cubes| ==> cubes[j].data.Some?
    requires forall j :: 0 <= j < |cubes| - 1 ==> init[j] == NatStr(j) + ". " + CubeStr(cubes[j]).value
    requires item == NatStr(|cubes| - 1) + ". " + CubeStr(cubes[|cubes| - 1]).value
    ensures forall j :: 0 <= j < |cubes| ==> (init + [item])[j] == NatStr(j) + ". " + CubeStr(cubes[j]).value
  {
    forall j | 0 <= j < |cubes| ensures (init + [item])[j] == NatStr(j) + ". " + CubeStr(cubes[j]).value {
      if j < |init| {
        assert (init + [item])[j] == init[j];
      } else {
        assert j == |cubes| - 1 && (init + [item])[j] == item;
      }
    }
  }

  /** A list has data throughout exactly when the list without its last cube does and that cube
      has data too. */
  lemma AllDataSnoc(pre: seq<Cube>, cubes: seq<Cube>)
    requires |cubes| > 0 && pre == cubes[..|cubes| - 1]
    ensures (forall j :: 0 <= j < |cubes| ==> cubes[j].data.Some?) <==>
      (forall j :: 0 <= j < |pre| ==> pre[j].data.Some?) && cubes[|cubes| - 1].data.Some?
  {
    if forall j :: 0 <= j < |pre| ==> pre[j].data.Some? {
      forall j | 0 <= j < |cubes| - 1 ensures cubes[j].data.Some? {
        assert cubes[j] == pre[j];
      }
    }
  }

  /** Numbering one more cube appends one entry, numbered after the others. */
  lemma EntriesAppend(cubes: seq<Cube>, c: Cube)
    requires forall j :: 0 <= j < |cubes| ==> cubes[j].data.Some?
    requires c.data.Some?
    ensures Entries(cubes + [c]).Ok?
    ensures Entries(cubes + [c]).value == Entries(cubes).value + [NatStr(|cubes|) + ". " + CubeStr(c).value]
  {
    var all := cubes + [c];
    assert all[..|all| - 1] == cubes;
    AllDataSnoc(cubes, all);
  }

  /** Printing one more cube adds `, <n>. <cube>` just before the closing bracket. */
  lemma ListStrAppend(cubes: seq<Cube>, c: Cube)
    requires |cubes| > 0 && forall j :: 0 <= j < |cubes| ==> cubes[j].data.Some?
    requires c.data.Some?
    ensures ListStr(cubes + [c]).Ok?
    ensures ListStr(cubes + [c]).value ==
      ListStr(cubes).value[..|ListStr(cubes).value| - 1] + ", " + NatStr(|cubes|) + ". " + CubeStr(c).value + "]"
  {
    ListStrSnoc(cubes, c);
    BracketJoinSnoc(ListStr(cubes).value, ListStr(cubes + [c]).value, Entries(cubes).value,
                    NatStr(|cubes|), CubeStr(c).value);
  }

  /** The string form of a list with one more cube, as the bracketed join of the longer entries. */
  lemma ListStrSnoc(cubes: seq<Cube>, c: Cube)
    requires forall j :: 0 <= j < |cubes| ==> cubes[j].data.Some?
    requires c.data.Some?
    ensures ListStr(cubes + [c]).Ok?
    ensures ListStr(cubes + [c]).value ==
      "[" + Join(", ", Entries(cubes).value + [NatStr(|cubes|) + ". " + CubeStr(c).value]) + "]"
  {
    EntriesAppend(cubes, c);
  }

  /** The string-level step of `ListStrAppend`, over plain strings. */
  lemma BracketJoinSnoc(l: string, l2: string, e: seq<string>, n: string, s: string)
    requires |e| > 0
    requires l == "[" + Join(", ", e) + "]" && l2 == "[" + Join(", ", e + [n + ". " + s]) + "]"
    ensures l2 == l[..|l| - 1] + ", " + n + ". " + s + "]"
  {
    JoinAppend(", ", e, n + ". " + s);
    BracketSnoc(Join(", ", e), ", ", n, ". ", s);
  }

  /** Dropping the closing bracket of `[body]`, appending `sep`, an entry and the bracket again
      is bracketing the longer body. */
  lemma BracketSnoc(body: string, sep: string, n: string, dot: string, s: string)
    ensures ("[" + body + "]")[..|"[" + body + "]"| - 1] + sep + n + dot + s + "]" ==
      "[" + (body + sep + (n + dot + s)) + "]"
  {
    assert ("[" + body + "]")[..|"[" + body + "]"| - 1] == "[" + body;
    // Flatten "[" + (body + sep + (n + dot + s)) into "[" + body + sep + n + dot + s.
    ConcatAssoc("[", body + sep, n + dot + s);
    ConcatAssoc("[", body, sep);
    ConcatAssoc("[" + body + sep, n + dot, s);
    ConcatAssoc("[" + body + sep, n, dot);
  }

  /** A header whose name and unit cards are absent or strings, so that a cube can be built. */
  predicate WellTyped(h: Header) {
    ("EXTNAME" in h ==> h["EXTNAME"].Str?) && ("BUNIT" in h ==> h["BUNIT"].Str?)
  }

  /** The sample file: a data-less primary extension, two (2048, 17, 17) cubes around a
      one-dimensional extension. */
  function SampleFile(h0: Header, h1: Header, h2: Header, h3: Header): File {
    [Extension(h0, None), Extension(h1, Some([2048, 17, 17])), Extension(h2, Some([10])),
     Extension(h3, Some([2048, 17, 17]))]
  }

  /** Only the second and fourth extensions of the sample file hold 3D data. */
  lemma SampleCubeIndices(h0: Header, h1: Header, h2: Header, h3: Header)
    ensures CubeIndices(SampleFile(h0, h1, h2, h3)) == [1, 3]
  {
    var file := SampleFile(h0, h1, h2, h3);
    CubeIndicesSnoc(file, 0);
    CubeIndicesSnoc(file, 1);
    CubeIndicesSnoc(file, 2);
    CubeIndicesSnoc(file, 3);
    assert file[..0] == [];
    assert file[..4] == file;
  }

  /** Reading the sample file yields exactly two cubes, both of shape (2048, 17, 17). */
  method ReadSample(h0: Header, h1: Header, h2: Header, h3: Header) returns (r: Result<seq<Cube>>)
    requires WellTyped(h1) && WellTyped(h3)
    ensures r.Ok? && |r.value| == 2
    ensures r.value[0].data == Some([2048, 17, 17]) && r.value[1].data == Some([2048, 17, 17])
    ensures r.value[0].otherHeader == h1 && r.value[1].otherHeader == h3
  {
    var file := SampleFile(h0, h1, h2, h3);
    SampleCubeIndices(h0, h1, h2, h3);
    assert ConstructFromHdu(file[1]).Ok? && ConstructFromHdu(file[3]).Ok?;
    r := Read(file);
  }

  /** The string form of the list read from the sample file. */
  lemma SampleListStr(a: Cube, b: Cube)
    requires a.data == Some([2048, 17, 17]) && b.data == Some([2048, 17, 17])
    ensures ListStr([a, b]) == Ok("[0. IFUCube " + a.name + " (2048, 17, 17), 1. IFUCube " + b.name + " (2048, 17, 17)]")
  {
    var t := " (2048, 17, 17)";
    var x, y := "0. IFUCube " + a.name + t, "1. IFUCube " + b.name + t;
    var pre, p, q, mid := "0. IFUCube ", a.name, b.name, "1. IFUCube ";
    var v := "[" + pre + p;
    var w := v + t + ", ";
    // Flatten "[" + (x + ", " + y) + "]" into v + (t + ", " + mid) + q + (t + "]"), where
    // v == "[" + pre + p; the three literal joins below then merge the pieces.
    ConcatAssoc("[", x + ", ", y);
    ConcatAssoc("[", x, ", ");
    ConcatAssoc("[", pre + p, t);
    ConcatAssoc("[", pre, p);
    ConcatAssoc(w, mid + q, t);
    ConcatAssoc(w, mid, q);
    ConcatAssoc(w + mid + q, t, "]");
    ConcatAssoc(v, t, ", ");
    ConcatAssoc(v, t + ", ", mid);
    assert "[" + pre == "[0. IFUCube ";
    assert t + ", " + mid == " (2048, 17, 17), 1. IFUCube ";
    assert t + "]" == " (2048, 17, 17)]";
    SampleEntries(a, b);
    assert [x, y][1..] == [y];
    assert Join(", ", [x, y]) == x + ", " + y;
  }

  lemma SampleEntries(a: Cube, b: Cube)
    requires a.data == Some([2048, 17, 17]) && b.data == Some([2048, 17, 17])
    ensures Entries([a, b]) == Ok(["0. IFUCube " + a.name + " (2048, 17, 17)", "1. IFUCube " + b.name + " (2048, 17, 17)"])
  {
    SampleCubeStr(a.name, a.unit, a.otherHeader);
    SampleCubeStr(b.name, b.unit, b.otherHeader);
    assert a == Cube(a.name, Some([2048, 17, 17]), a.unit, a.otherHeader);
    assert b == Cube(b.name, Some([2048, 17, 17]), b.unit, b.otherHeader);
    NumberedEntries(a, b, " (2048, 17, 17)");
  }

  /** Two cubes whose string forms end in the same shape text are numbered 0 and 1. */
  lemma NumberedEntries(a: Cube, b: Cube, t: string)
    requires CubeStr(a) == Ok("IFUCube " + a.name + t) && CubeStr(b) == Ok("IFUCube " + b.name + t)
    ensures Entries([a, b]) == Ok(["0. IFUCube " + a.name + t, "1. IFUCube " + b.name + t])
  {
    // Flatten d + ". " + ("IFUCube " + name + t) into (d + ". " + "IFUCube ") + name + t.
    ConcatAssoc("0" + ". ", "IFUCube " + a.name, t);
    ConcatAssoc("0" + ". ", "IFUCube ", a.name);
    ConcatAssoc("1" + ". ", "IFUCube " + b.name, t);
    ConcatAssoc("1" + ". ", "IFUCube ", b.name);
    assert "0" + ". " + "IFUCube " == "0. IFUCube " && "1" + ". " + "IFUCube " == "1. IFUCube ";
    TwoEntries(a, b);
    SmallNatStrs();
  }

  lemma TwoEntries(a: Cube, b: Cube)
    requires a.data.Some? && b.data.Some?
    ensures Entries([a, b]) == Ok([NatStr(0) + ". " + CubeStr(a).value, NatStr(1) + ". " + CubeStr(b).value])
  {
    var cubes := [a, b];
    assert cubes[0] == a && cubes[1] == b;
    var e := Entries(cubes);
    assert e.Ok? && |e.value| == 2;
    assert e.value[0] == NatStr(0) + ". " + CubeStr(a).value;
    assert e.value[1] == NatStr(1) + ". " + CubeStr(b).value;
    assert e.value == [e.value[0], e.value[1]];
  }

  lemma SmallNatStrs()
    ensures NatStr(0) == "0" && NatStr(1) == "1"
  {
  }
}

=== FILE: cubes.dfy ===
/** `IFUCube`: one 3D IFU data set built from an extension (ifucube/ifucube.py). */
module Cubes {
  import opened Results
  import opened Fits
  import opened Units
  import opened Text

  /** A cube: its name, the shape of its data (`None` when data is `None`), its normalised
      unit string and the full header it was read from. */
  datatype Cube = Cube(name: string, data: Option<seq<nat>>, unit: string, otherHeader: Header)

  /** A header value Python treats as false: the empty string or zero. */
  predicate Falsy(v: HeaderValue) {
    v == Str("") || v == Int(0)
  }

  /** `self.name = name if name else ''` into a `Unicode` trait, which refuses a non-string. */
  function InitName(v: HeaderValue): (r: Result<string>)
    ensures Falsy(v) ==> r == Ok("")
    ensures v.Str? ==> r == Ok(v.s)
    ensures r.Err? <==> v.Int? && v.i != 0
    ensures r.Err? ==> r.error == TraitError
  {
    match v
    case Str(s) => Ok(s)
    case Int(i) => if i == 0 then Ok("") else Err(TraitError)
  }

  /** The `unit` setter: a string is normalised; an integer has no `replace` method. */
  function SetUnit(v: HeaderValue): (r: Result<string>)
    ensures v.Str? ==> r == Ok(Normalize(v.s)) && |r.value| <= |v.s|
    ensures v.Int? ==> r == Err(AttributeError)
  {
    match v
    case Str(s) =>
      NormalizeNeverLonger(s);
      Ok(Normalize(s))
    case Int(_) => Err(AttributeError)
  }

  /** `IFUCube.__init__`: the name is assigned before the unit, so a bad name is reported first. */
  function NewCube(name: HeaderValue, data: Option<seq<nat>>, unit: HeaderValue, otherHeader: Header): (r: Result<Cube>)
    ensures r.Ok? <==> InitName(name).Ok? && SetUnit(unit).Ok?
    ensures InitName(name).Err? ==> r == Err(TraitError)
    ensures r.Ok? ==> r.value == Cube(InitName(name).value, data, SetUnit(unit).value, otherHeader)
  {
    var n :- InitName(name);
    var u :- SetUnit(unit);
    Ok(Cube(n, data, u, otherHeader))
  }

  /** `IFUCube.constructFromHDU`: `EXTNAME` and `BUNIT` default to the empty string. */
  function ConstructFromHdu(e: Extension): (r: Result<Cube>)
    ensures r.Ok? <==>
      (("EXTNAME" in e.header && e.header["EXTNAME"].Int?) ==> e.header["EXTNAME"].i == 0) &&
      ("BUNIT" in e.header ==> e.header["BUNIT"].Str?)
    ensures r.Ok? ==> r.value.data == e.data && r.value.otherHeader == e.header
    ensures r.Ok? ==> ("EXTNAME" !in e.header ==> r.value.name == "")
    ensures r.Ok? ==> ("EXTNAME" in e.header && e.header["EXTNAME"].Str? ==> r.value.name == e.header["EXTNAME"].s)
    ensures r.Ok? && "EXTNAME" in e.header && e.header["EXTNAME"] == Int(0) ==> r.value.name == ""
    ensures r.Ok? ==> ("BUNIT" !in e.header ==> r.value.unit == "")
    ensures r.Ok? ==> ("BUNIT" in e.header ==> r.value.unit == Normalize(e.header["BUNIT"].s))
  {
    NormalizeUnchangedIffClean("");
    NewCube(Get(e.header, "EXTNAME", Str("")), e.data, Get(e.header, "BUNIT", Str("")), e.header)
  }

  /** Python's `repr` of a shape tuple: `(2048, 17, 17)`, `(10,)`, `()`. */
  function ShapeRepr(dims: seq<nat>): (r: string)
    ensures |r| >= 2 && r[0] == '(' && r[|r| - 1] == ')'
    ensures |dims| == 0 ==> r == "()"
    ensures |dims| == 1 ==> r == "(" + NatStr(dims[0]) + ",)"
    ensures |dims| == 3 ==> r == "(" + NatStr(dims[0]) + ", " + NatStr(dims[1]) + ", " + NatStr(dims[2]) + ")"
  {
    var parts := DimStrs(dims);
    var r := "(" + Join(", ", parts) + (if |dims| == 1 then ",)" else ")");
    if |dims| == 1 then
      assert parts == [NatStr(dims[0])];
      ConcatAssoc("(" + NatStr(dims[0]), ",", ")");
      r
    else if |dims| == 3 then
      var x, y, z := NatStr(dims[0]), NatStr(dims[1]), NatStr(dims[2]);
      assert parts == [x, y, z];
      JoinThree(", ", x, y, z);
      // Flatten "(" + (x + ", " + y + ", " + z) into "(" + x + ", " + y + ", " + z.
      ConcatAssoc("(", x + ", " + y + ", ", z);
      ConcatAssoc("(", x + ", " + y, ", ");
      ConcatAssoc("(", x + ", ", y);
      ConcatAssoc("(", x, ", ");
      r
    else
      r
  }

  function DimStrs(dims: seq<nat>): (r: seq<string>)
    ensures |r| == |dims|
    ensures forall i :: 0 <= i < |dims| ==> r[i] == NatStr(dims[i])
  {
    if |dims| == 0 then [] else [NatStr(dims[0])] + DimStrs(dims[1..])
  }

  /** The effective `__str__` (the later definition overrides the one reporting the unit). */
  function CubeStr(c: Cube): (r: Result<string>)
    ensures r.Ok? <==> c.data.Some?
    ensures r.Err? ==> r.error == AttributeError
    ensures r.Ok? ==> r.value == "IFUCube " + c.name + " " + ShapeRepr(c.data.value)
  {
    match c.data
    case None => Err(AttributeError)
    case Some(dims) => Ok("IFUCube " + c.name + " " + ShapeRepr(dims))
  }

  /** A cube with three-dimensional data prints its three axis lengths in decimal. */
  lemma CubeStrThreeAxes(c: Cube)
    requires c.data.Some? && |c.data.value| == 3
    ensures CubeStr(c) == Ok("IFUCube " + c.name + " (" + NatStr(c.data.value[0]) + ", " +
                             NatStr(c.data.value[1]) + ", " + NatStr(c.data.value[2]) + ")")
  {
    var d := c.data.value;
    var x, y, z := NatStr(d[0]), NatStr(d[1]), NatStr(d[2]);
    var p := "IFUCube " + c.name;
    // Flatten p + " " + ("(" + x + ", " + y + ", " + z + ")") one piece at a time into
    // p + (" " + "(") + x + ", " + y + ", " + z + ")".
    ConcatAssoc(p, " ", "(" + x + ", " + y + ", " + z + ")");
    ConcatAssoc(p, " ", "(");
    ConcatAssoc(p + " ", "(", x);
    ConcatAssoc(p + " ", "(" + x, ", ");
    ConcatAssoc(p + " ", "(" + x + ", ", y);
    ConcatAssoc(p + " ", "(" + x + ", " + y, ", ");
    ConcatAssoc(p + " ", "(" + x + ", " + y + ", ", z);
    ConcatAssoc(p + " ", "(" + x + ", " + y + ", " + z, ")");
    assert " " + "(" == " (";
  }

  /** The string form of a cube read from the sample file. */
  lemma SampleCubeStr(name: string, unit: string, h: Header)
    ensures CubeStr(Cube(name, Some([2048, 17, 17]), unit, h)) == Ok("IFUCube " + name + " (2048, 17, 17)")
  {
    assert " " + "(2048, 17, 17)" == " (2048, 17, 17)";
    ConcatAssoc("IFUCube " + name, " ", "(2048, 17, 17)");
    SampleShapeRepr();
  }

  lemma SampleShapeRepr()
    ensures ShapeRepr([2048, 17, 17]) == "(2048, 17, 17)"
  {
    var d: seq<nat> := [2048, 17, 17];
    assert |d| == 3 && d[0] == 2048 && d[1] == 17 && d[2] == 17;
    Decimal2048();
    Decimal17();
    assert "(" + "2048" + ", " + "17" + ", " + "17" + ")" == "(2048, 17, 17)";
  }

  lemma Decimal2048()
    ensures NatStr(2048) == "2048"
  {
    assert NatStr(2) == "2";
    assert NatStr(20) == NatStr(2) + "0";
    assert NatStr(204) == NatStr(20) + "4";
    assert NatStr(2048) == NatStr(204) + "8";
  }

  lemma Decimal17()
    ensures NatStr(17) == "17"
  {
    assert NatStr(1) == "1";
    assert NatStr(17) == NatStr(1) + "7";
  }
}

=== FILE: fits.dfy ===
/** The in-memory multi-extension container the core borrows from the FITS library. */
module Fits {

  /** A header card value: only integers and strings occur in the modelled code. */
  datatype HeaderValue = Int(i: int) | Str(s: string)

  /** A header maps (upper-case, already normalised) keywords to values. */
  type Header = map<string, HeaderValue>

  /** One extension (HDU): its header and the shape of its data array, `None` when `data` is `None`. */
  datatype Extension = Extension(header: Header, data: Option<seq<nat>>)

  datatype Option<+T> = None | Some(value: T)

  /** An opened file is the ordered sequence of its extensions. */
  type File = seq<Extension>

  /** `header.get(key, default)`. */
  function Get(h: Header, key: string, default: HeaderValue): (v: HeaderValue)
    ensures key in h ==> v == h[key]
    ensures key !in h ==> v == default
  {
    if key in h then h[key] else default
  }

  /** The data array is present and has exactly three axes. */
  predicate IsCube(e: Extension) {
    e.data.Some? && |e.data.value| == 3
  }
}

=== FILE: ordering.dfy ===
/** Python's ordering of `str` values (code point by code point) and the sort `dir()` applies. */
module Ordering {

  /** `a <= b` for Python strings: lexicographic by code point, a proper prefix first. */
  predicate LessEq(a: string, b: string)
    decreases |a|
  {
    |a| == 0 || (|b| > 0 && (a[0] < b[0] || (a[0] == b[0] && LessEq(a[1..], b[1..]))))
  }

  lemma {:induction false} LessEqTotal(a: string, b: string)
    ensures LessEq(a, b) || LessEq(b, a)
    decreases |a|
  {
    if |a| > 0 && |b| > 0 && a[0] == b[0] {
      LessEqTotal(a[1..], b[1..]);
    }
  }

  lemma {:induction false} LessEqTransitive(a: string, b: string, c: string)
    requires LessEq(a, b) && LessEq(b, c)
    ensures LessEq(a, c)
    decreases |a|
  {
    if |a| > 0 && a[0] == b[0] && b[0] == c[0] {
      LessEqTransitive(a[1..], b[1..], c[1..]);
    }
  }

  /** Every element's key is no greater than any later element's key. */
  predicate SortedBy<T>(xs: seq<T>, key: T -> string) {
    forall i, j :: 0 <= i < j < |xs| ==> LessEq(key(xs[i]), key(xs[j]))
  }

  /** Insert `x` in front of the first element whose key is not smaller. */
  function Insert<T>(x: T, xs: seq<T>, key: T -> string): seq<T> {
    if |xs| == 0 then [x]
    else if LessEq(key(x), key(xs[0])) then [x] + xs
    else [xs[0]] + Insert(x, xs[1..], key)
  }

  /** Python's `sorted` on the keys, as an insertion sort (both sorts are stable). */
  function SortBy<T>(xs: seq<T>, key: T -> string): seq<T> {
    if |xs| == 0 then [] else Insert(xs[0], SortBy(xs[1..], key), key)
  }

  lemma {:induction false} InsertPermutation<T>(x: T, xs: seq<T>, key: T -> string)
    ensures multiset(Insert(x, xs, key)) == multiset(xs) + multiset{x}
  {
    if |xs| > 0 && !LessEq(key(x), key(xs[0])) {
      InsertPermutation(x, xs[1..], key);
      assert xs == [xs[0]] + xs[1..];
    }
  }

  /** Every element of `xs` lies in the sorted sequence `xs` after its first element. */
  lemma SortedHead<T>(xs: seq<T>, key: T -> string, y: T)
    requires SortedBy(xs, key) && |xs| > 0 && y in multiset(xs[1..])
    ensures LessEq(key(xs[0]), key(y))
  {
    var k :| 0 <= k < |xs[1..]| && xs[1..][k] == y;
    assert xs[k + 1] == y;
  }

  lemma {:induction false} InsertSorted<T>(x: T, xs: seq<T>, key: T -> string)
    requires SortedBy(xs, key)
    ensures SortedBy(Insert(x, xs, key), key)
  {
    if |xs| == 0 {
    } else if LessEq(key(x), key(xs[0])) {
      forall j | 0 <= j < |xs| ensures LessEq(key(x), key(xs[j])) {
        if j > 0 {
          LessEqTransitive(key(x), key(xs[0]), key(xs[j]));
        }
      }
    } else {
      var tail := Insert(x, xs[1..], key);
      InsertSorted(x, xs[1..], key);
      InsertPermutation(x, xs[1..], key);
      LessEqTotal(key(x), key(xs[0]));
      forall j | 0 <= j < |tail| ensures LessEq(key(xs[0]), key(tail[j])) {
        assert tail[j] in multiset(tail);
        if tail[j] != x {
          SortedHead(xs, key, tail[j]);
        }
      }
    }
  }

  /** `SortBy` returns a permutation of its input. */
  lemma {:induction false} SortByPermutation<T>(xs: seq<T>, key: T -> string)
    ensures multiset(SortBy(xs, key)) == multiset(xs)
  {
    if |xs| > 0 {
      SortByPermutation(xs[1..], key);
      InsertPermutation(xs[0], SortBy(xs[1..], key), key);
      assert xs == [xs[0]] + xs[1..];
    }
  }

  /** `SortBy` returns a sequence sorted by key. */
  lemma {:induction false} SortBySorted<T>(xs: seq<T>, key: T -> string)
    ensures SortedBy(SortBy(xs, key), key)
  {
    if |xs| > 0 {
      SortBySorted(xs[1..], key);
      InsertSorted(xs[0], SortBy(xs[1..], key), key);
    }
  }

  /** Four elements of which only the last two are out of order. */
  lemma SortLastTwoSwapped<T>(a: T, b: T, c: T, d: T, key: T -> string)
    requires LessEq(key(a), key(b)) && LessEq(key(b), key(d)) && !LessEq(key(c), key(d))
    ensures SortBy([a, b, c, d], key) == [a, b, d, c]
  {
    assert [a, b, c, d][1..] == [b, c, d];
    assert [b, c, d][1..] == [c, d];
    assert [c, d][1..] == [d];
    assert [d][1..] == [];
    assert SortBy([d], key) == [d];
    assert Insert(c, [d], key) == [d] + Insert(c, [], key);
    assert SortBy([c, d], key) == [d, c];
    assert SortBy([b, c, d], key) == [b, d, c];
  }

  /** Keep, in order, the elements whose key starts with `prefix` (`str.startswith`). */
  function FilterPrefix<T(!new)>(xs: seq<T>, key: T -> string, prefix: string): (r: seq<T>)
    ensures forall y :: y in r <==> y in xs && HasPrefix(key(y), prefix)
    ensures SortedBy(xs, key) ==> SortedBy(r, key)
  {
    if |xs| == 0 then []
    else
      var tail := FilterPrefix(xs[1..], key, prefix);
      assert forall y :: y in xs <==> y == xs[0] || y in xs[1..] by {
        assert xs == [xs[0]] + xs[1..];
      }
      if HasPrefix(key(xs[0]), prefix) then
        assert SortedBy(xs, key) ==> SortedBy([xs[0]] + tail, key) by {
          if SortedBy(xs, key) {
            SortedRest(xs, key);
            SortedCons(xs[0], tail, key);
          }
        }
        [xs[0]] + tail
      else
        assert SortedBy(xs, key) ==> SortedBy(xs[1..], key) by {
          if SortedBy(xs, key) {
            SortedRest(xs, key);
          }
        }
        tail
  }

  /** The rest of a sorted sequence is sorted and no smaller than its head. */
  lemma SortedRest<T>(xs: seq<T>, key: T -> string)
    requires |xs| > 0 && SortedBy(xs, key)
    ensures SortedBy(xs[1..], key)
    ensures forall y :: y in xs[1..] ==> LessEq(key(xs[0]), key(y))
  {
    forall i, j | 0 <= i < j < |xs[1..]| ensures LessEq(key(xs[1..][i]), key(xs[1..][j])) {
      assert xs[1..][i] == xs[i + 1] && xs[1..][j] == xs[j + 1];
    }
    forall y | y in xs[1..] ensures LessEq(key(xs[0]), key(y)) {
      var k :| 0 <= k < |xs[1..]| && xs[1..][k] == y;
      assert xs[k + 1] == y;
    }
  }

  /** An element no larger than any of a sorted sequence's elements can go in front of it. */
  lemma SortedCons<T>(x: T, ys: seq<T>, key: T -> string)
    requires SortedBy(ys, key) && forall y :: y in ys ==> LessEq(key(x), key(y))
    ensures SortedBy([x] + ys, key)
  {
    forall i, j | 0 <= i < j < |[x] + ys| ensures LessEq(key(([x] + ys)[i]), key(([x] + ys)[j])) {
      if i == 0 {
        assert ([x] + ys)[j] == ys[j - 1] && ys[j - 1] in ys;
      } else {
        assert ([x] + ys)[i] == ys[i - 1] && ([x] + ys)[j] == ys[j - 1];
      }
    }
  }

  /** Each element with the prefix is kept exactly as often as it occurs; the others are dropped. */
  lemma {:induction false} FilterPrefixCount<T(!new)>(xs: seq<T>, key: T -> string, prefix: string)
    ensures forall y :: multiset(FilterPrefix(xs, key, prefix))[y] ==
                        (if HasPrefix(key(y), prefix) then multiset(xs)[y] else 0)
    decreases |xs|
  {
    if |xs| > 0 {
      FilterPrefixCount(xs[1..], key, prefix);
      assert xs == [xs[0]] + xs[1..];
      assert multiset(xs) == multiset{xs[0]} + multiset(xs[1..]);
    }
  }

  /** Filtering distributes over concatenation, so kept elements stay in their input order. */
  lemma {:induction false} FilterPrefixAppend<T(!new)>(a: seq<T>, b: seq<T>, key: T -> string, prefix: string)
    ensures FilterPrefix(a + b, key, prefix) == FilterPrefix(a, key, prefix) + FilterPrefix(b, key, prefix)
    decreases |a|
  {
    if |a| == 0 {
      assert a + b == b;
    } else {
      assert (a + b)[0] == a[0] && (a + b)[1..] == a[1..] + b;
      FilterPrefixAppend(a[1..], b, key, prefix);
      var fa, fb := FilterPrefix(a[1..], key, prefix), FilterPrefix(b, key, prefix);
      assert [a[0]] + (fa + fb) == [a[0]] + fa + fb;
    }
  }

  predicate HasPrefix(s: string, prefix: string) {
    |prefix| <= |s| && s[..|prefix|] == prefix
  }
}

=== FILE: replace.dfy ===
/** Python's `str.replace(bad, good)`: every non-overlapping occurrence, scanning left to right. */
module Replace {

  /** `bad` occurs in `s` starting at index `i`. */
  predicate MatchAt(s: string, bad: string, i: nat) {
    i + |bad| <= |s| && s[i..i + |bad|] == bad
  }

  /** `bad` occurs somewhere in `s` (Python's `bad in s`). */
  predicate Occurs(s: string, bad: string) {
    exists i: nat | i <= |s| :: MatchAt(s, bad, i)
  }

  /** `s.replace(bad, good)`; with an empty `bad` Python inserts `good` before every character and at the end. */
  function ReplaceAll(s: string, bad: string, good: string): (r: string)
    decreases |s|
  {
    if |bad| == 0 then InsertEverywhere(s, good)
    else if |s| < |bad| then s
    else if s[..|bad|] == bad then good + ReplaceAll(s[|bad|..], bad, good)
    else [s[0]] + ReplaceAll(s[1..], bad, good)
  }

  function InsertEverywhere(s: string, good: string): (r: string)
    ensures |r| == |s| + (|s| + 1) * |good|
  {
    if |s| == 0 then good else good + [s[0]] + InsertEverywhere(s[1..], good)
  }

  /** How many occurrences the left-to-right scan replaces. */
  function Count(s: string, bad: string): nat
    requires |bad| > 0
    decreases |s|
  {
    if |s| < |bad| then 0
    else if s[..|bad|] == bad then 1 + Count(s[|bad|..], bad)
    else Count(s[1..], bad)
  }

  lemma OccursHead(s: string, bad: string)
    requires |bad| <= |s| && s[..|bad|] == bad
    ensures Occurs(s, bad)
  {
    assert MatchAt(s, bad, 0);
  }

  lemma ShortNoOccurrence(s: string, bad: string)
    requires |s| < |bad|
    ensures !Occurs(s, bad)
  {
  }

  /** An occurrence in `s` that does not start at 0 is an occurrence in `s[1..]`, and conversely. */
  lemma OccursTail(s: string, bad: string)
    requires |s| > 0 && !MatchAt(s, bad, 0)
    ensures Occurs(s, bad) <==> Occurs(s[1..], bad)
  {
    if Occurs(s, bad) {
      var i: nat :| i <= |s| && MatchAt(s, bad, i);
      assert i > 0;
      assert s[1..][i - 1..i - 1 + |bad|] == s[i..i + |bad|];
      assert MatchAt(s[1..], bad, i - 1);
    }
    if Occurs(s[1..], bad) {
      var i: nat :| i <= |s[1..]| && MatchAt(s[1..], bad, i);
      assert s[i + 1..i + 1 + |bad|] == s[1..][i..i + |bad|];
      assert MatchAt(s, bad, i + 1);
    }
  }

  /** A string with no occurrence of a non-empty `bad` is returned unchanged. */
  lemma {:induction false} NoOccurrenceUnchanged(s: string, bad: string, good: string)
    requires |bad| > 0 && !Occurs(s, bad)
    ensures ReplaceAll(s, bad, good) == s
    decreases |s|
  {
    if |s| >= |bad| {
      assert !MatchAt(s, bad, 0);
      OccursTail(s, bad);
      NoOccurrenceUnchanged(s[1..], bad, good);
      assert [s[0]] + s[1..] == s;
    }
  }

  /** Each replacement trades `|bad|` characters for `|good|` ones and nothing else changes length. */
  lemma {:induction false} ReplaceLength(s: string, bad: string, good: string)
    requires |bad| > 0
    ensures |ReplaceAll(s, bad, good)| + Count(s, bad) * |bad| == |s| + Count(s, bad) * |good|
    decreases |s|
  {
    if |s| < |bad| {
    } else if s[..|bad|] == bad {
      var t := s[|bad|..];
      ReplaceLength(t, bad, good);
      OneMore(Count(t, bad), |ReplaceAll(t, bad, good)|, |t|, |bad|, |good|);
    } else {
      ReplaceLength(s[1..], bad, good);
    }
  }

  /** The arithmetic step of `ReplaceLength` for a replaced occurrence. */
  lemma OneMore(k: nat, r: nat, t: nat, b: nat, g: nat)
    requires r + k * b == t + k * g
    ensures (g + r) + (k + 1) * b == (b + t) + (k + 1) * g
  {
    assert (k + 1) * b == k * b + b;
    assert (k + 1) * g == k * g + g;
  }

  /** The scan replaces at least one occurrence exactly when `bad` occurs. */
  lemma {:induction false} CountPositiveIffOccurs(s: string, bad: string)
    requires |bad| > 0
    ensures Count(s, bad) > 0 <==> Occurs(s, bad)
    decreases |s|
  {
    if |s| < |bad| {
      ShortNoOccurrence(s, bad);
    } else if s[..|bad|] == bad {
      OccursHead(s, bad);
    } else {
      assert !MatchAt(s, bad, 0);
      OccursTail(s, bad);
      CountPositiveIffOccurs(s[1..], bad);
    }
  }

  /** A replacement by a token no longer than the one replaced never lengthens the string. */
  lemma NotLonger(s: string, bad: string, good: string)
    requires |good| <= |bad|
    ensures |ReplaceAll(s, bad, good)| <= |s|
  {
    if |bad| > 0 {
      ReplaceLength(s, bad, good);
      var k := Count(s, bad);
      assert k * |good| <= k * |bad| by {
        MulMonotone(k, |good|, |bad|);
      }
    }
  }

  /** ... and strictly shortens it when it is strictly shorter and `bad` occurs. */
  lemma Shortens(s: string, bad: string, good: string)
    requires |good| < |bad| && Occurs(s, bad)
    ensures |ReplaceAll(s, bad, good)| < |s|
  {
    ReplaceLength(s, bad, good);
    CountPositiveIffOccurs(s, bad);
    var k := Count(s, bad);
    assert k * |good| < k * |bad| by {
      MulStrict(k, |good|, |bad|);
    }
  }

  lemma MulMonotone(k: nat, a: nat, b: nat)
    requires a <= b
    ensures k * a <= k * b
  {
  }

  lemma MulStrict(k: nat, a: nat, b: nat)
    requires k > 0 && a < b
    ensures k * a < k * b
  {
  }

  /** With a same-length, different token, a string changes exactly when `bad` occurs in it. */
  lemma {:induction false} SameLengthChangesIffOccurs(s: string, bad: string, good: string)
    requires |bad| > 0 && |good| == |bad| && good != bad
    ensures ReplaceAll(s, bad, good) != s <==> Occurs(s, bad)
    decreases |s|
  {
    if |s| < |bad| {
      ShortNoOccurrence(s, bad);
      NoOccurrenceUnchanged(s, bad, good);
    } else if !Occurs(s, bad) {
      NoOccurrenceUnchanged(s, bad, good);
    } else if s[..|bad|] == bad {
      var r := ReplaceAll(s, bad, good);
      assert r[..|good|] == good;
      assert s[..|bad|] == bad;
    } else {
      assert !MatchAt(s, bad, 0);
      OccursTail(s, bad);
      SameLengthChangesIffOccurs(s[1..], bad, good);
      var r := ReplaceAll(s, bad, good);
      assert r == [s[0]] + ReplaceAll(s[1..], bad, good);
      assert r[1..] == ReplaceAll(s[1..], bad, good);
      assert s[1..] != ReplaceAll(s[1..], bad, good);
    }
  }
}

=== FILE: results.dfy ===
/** Outcomes of operations that can raise a Python exception in the modelled code. */
module Results {

  /** The exceptions raised by the modelled code or by the traitlets trait it assigns to. */
  datatype PyError =
    | IndexError      // indexing extension 0 of a file with no extensions
    | AttributeError  // an attribute or method used on a value that lacks it (`None.shape`, `0.replace`)
    | TraitError      // a traitlets `Unicode` trait given a value that is not a string

  /** Either a value or the exception that was raised instead. */
  datatype Result<+T> = Ok(value: T) | Err(error: PyError) {

    predicate IsFailure() {
      Err?
    }

    function PropagateFailure<U>(): Result<U>
      requires Err?
    {
      Err(error)
    }

    function Extract(): T
      requires Ok?
    {
      value
    }
  }
}

=== FILE: text.dfy ===
/** The pieces of Python's `str()` / `format` the string forms are built from. */
module Text {

  /** The decimal digit for `d`. */
  function Digit(d: nat): char
    requires d < 10
  {
    "0123456789"[d]
  }

  predicate IsDigit(c: char) {
    '0' <= c <= '9'
  }

  function DigitValue(c: char): nat
    requires IsDigit(c)
  {
    c as int - '0' as int
  }

  /** The number a string of decimal digits denotes. */
  function DecimalValue(s: string): nat
    requires forall i :: 0 <= i < |s| ==> IsDigit(s[i])
  {
    if |s| == 0 then 0
    else DecimalValue(s[..|s| - 1]) * 10 + DigitValue(s[|s| - 1])
  }

  /** `str(n)` for a non-negative integer: its canonical decimal form. */
  function NatStr(n: nat): (r: string)
    ensures |r| > 0 && (r[0] == '0' ==> r == "0")
    ensures forall i :: 0 <= i < |r| ==> IsDigit(r[i])
    ensures DecimalValue(r) == n
  {
    if n < 10 then [Digit(n)]
    else
      var r := NatStr(n / 10) + [Digit(n % 10)];
      assert r[..|r| - 1] == NatStr(n / 10);
      r
  }

  /** `sep.join(parts)`. */
  function Join(sep: string, parts: seq<string>): (r: string)
    ensures |parts| == 0 ==> r == ""
  {
    if |parts| == 0 then ""
    else if |parts| == 1 then parts[0]
    else parts[0] + sep + Join(sep, parts[1..])
  }

  /** A join starts with its first part. Kept apart from `Join`'s contract so that callers
      joining sequences of computed entries do not index into them. */
  lemma JoinStartsWithFirst(sep: string, parts: seq<string>)
    requires |parts| > 0
    ensures |Join(sep, parts)| >= |parts[0]| && Join(sep, parts)[..|parts[0]|] == parts[0]
  {
    if |parts| > 1 {
      assert Join(sep, parts) == parts[0] + (sep + Join(sep, parts[1..]));
    }
  }

  /** Joining one more part appends the separator and that part. */
  lemma {:induction false} JoinAppend(sep: string, parts: seq<string>, p: string)
    requires |parts| > 0
    ensures Join(sep, parts + [p]) == Join(sep, parts) + sep + p
    decreases |parts|
  {
    var all := parts + [p];
    assert all[0] == parts[0];
    if |parts| == 1 {
      assert all[1..] == [p];
    } else {
      assert all[1..] == parts[1..] + [p];
      JoinAppend(sep, parts[1..], p);
      calc {
        Join(sep, all);
        parts[0] + sep + Join(sep, parts[1..] + [p]);
        parts[0] + sep + (Join(sep, parts[1..]) + sep + p);
        parts[0] + sep + Join(sep, parts[1..]) + sep + p;
      }
    }
  }

  /** Three parts are joined with two separators. */
  lemma JoinThree(sep: string, a: string, b: string, c: string)
    ensures Join(sep, [a, b, c]) == a + sep + b + sep + c
  {
    JoinAppend(sep, [a], b);
    JoinAppend(sep, [a, b], c);
    assert [a] + [b] == [a, b] && [a, b] + [c] == [a, b, c];
  }

  /** Concatenation regroups freely. Stated over plain variables so that a caller can regroup
      around string literals without the solver unfolding them. */
  lemma ConcatAssoc(a: string, b: string, c: string)
    ensures a + (b + c) == a + b + c
  {
  }
}

=== FILE: units.dfy ===
/** The unit-string clean-up the `IFUCube.unit` setter performs before parsing a unit. */
module Units {
  import opened Replace

  /** One `(bad, good)` entry of the mapping table. */
  datatype Mapping = Mapping(bad: string, good: string)

  /** The fixed, ordered table of malformed spellings and their replacements. */
  const UnitMapping: seq<Mapping> := [
    Mapping("Ang", "A"),
    Mapping("Spaxel", "pixel"),
    Mapping("spaxel", "pixel"),
    Mapping("Counts", "count"),
    Mapping("COUNTS", "count"),
    Mapping("METER", "meter")
  ]

  /** One step of the setter's loop: an entry with an empty bad token is skipped. */
  function Apply(s: string, m: Mapping): string {
    if |m.bad| == 0 then s else ReplaceAll(s, m.bad, m.good)
  }

  /** The setter's loop over any table: each entry rewrites the output of the previous one. */
  function NormalizeWith(s: string, table: seq<Mapping>): string
    decreases |table|
  {
    if |table| == 0 then s else NormalizeWith(Apply(s, table[0]), table[1..])
  }

  /** The string the setter hands to the unit parser. */
  function Normalize(s: string): string {
    NormalizeWith(s, UnitMapping)
  }

  /** The setter's six replacements, in table order, each applied to the previous output. */
  lemma NormalizeSixReplaces(s: string)
    ensures Normalize(s) == ReplaceAll(ReplaceAll(ReplaceAll(ReplaceAll(ReplaceAll(ReplaceAll(
                   s, "Ang", "A"), "Spaxel", "pixel"), "spaxel", "pixel"),
                   "Counts", "count"), "COUNTS", "count"), "METER", "meter")
  {
  }

  /** No good token is longer than the bad token it replaces. */
  predicate Shrinking(table: seq<Mapping>) {
    forall i :: 0 <= i < |table| ==> |table[i].good| <= |table[i].bad|
  }

  /** Every non-empty entry strictly shortens what it matches, except that the last may swap
      its token for a different one of the same length. */
  predicate Detecting(table: seq<Mapping>) {
    forall i :: 0 <= i < |table| && |table[i].bad| > 0 ==>
      |table[i].good| < |table[i].bad| || (i == |table| - 1 && table[i].good != table[i].bad)
  }

  /** None of the table's non-empty bad tokens occurs in `s`. */
  predicate HasNoBadToken(s: string, table: seq<Mapping>) {
    forall i :: 0 <= i < |table| && |table[i].bad| > 0 ==> !Occurs(s, table[i].bad)
  }

  /** An empty-bad entry anywhere in the table has no effect on the result. */
  lemma {:induction false} EmptyEntrySkipped(s: string, before: seq<Mapping>, good: string, after: seq<Mapping>)
    ensures NormalizeWith(s, before + [Mapping("", good)] + after) == NormalizeWith(s, before + after)
    decreases |before|
  {
    if |before| == 0 {
      assert before + [Mapping("", good)] + after == [Mapping("", good)] + after;
      assert before + after == after;
    } else {
      var t := before + [Mapping("", good)] + after;
      assert t[0] == before[0];
      assert t[1..] == before[1..] + [Mapping("", good)] + after;
      assert (before + after)[0] == before[0];
      assert (before + after)[1..] == before[1..] + after;
      EmptyEntrySkipped(Apply(s, before[0]), before[1..], good, after);
    }
  }

  /** Without the skip, Python's replace of the empty string would insert the good token around
      every character. */
  lemma EmptyTokenGuarded(good: string)
    requires |good| > 0
    ensures ReplaceAll("m", "", good) == good + "m" + good
    ensures Apply("m", Mapping("", good)) == "m"
  {
    assert ReplaceAll("m", "", good) == good + ['m'] + InsertEverywhere([], good);
  }

  /** A table whose good tokens are never longer never lengthens the string. */
  lemma {:induction false} NormalizeNotLonger(s: string, table: seq<Mapping>)
    requires Shrinking(table)
    ensures |NormalizeWith(s, table)| <= |s|
    decreases |table|
  {
    if |table| > 0 {
      if |table[0].bad| > 0 {
        NotLonger(s, table[0].bad, table[0].good);
      }
      assert Shrinking(table[1..]) by {
        forall i | 0 <= i < |table[1..]| ensures |table[1..][i].good| <= |table[1..][i].bad| {
          assert table[1..][i] == table[i + 1];
        }
      }
      NormalizeNotLonger(Apply(s, table[0]), table[1..]);
    }
  }

  /** For a shrinking, detecting table the string comes back unchanged exactly when it holds
      none of the bad tokens. */
  lemma {:induction false} UnchangedIffNoBadToken(s: string, table: seq<Mapping>)
    requires Shrinking(table) && Detecting(table)
    ensures NormalizeWith(s, table) == s <==> HasNoBadToken(s, table)
    decreases |table|
  {
    if |table| > 0 {
      var m, rest := table[0], table[1..];
      assert Shrinking(rest) by {
        forall i | 0 <= i < |rest| ensures |rest[i].good| <= |rest[i].bad| {
          assert rest[i] == table[i + 1];
        }
      }
      assert Detecting(rest) by {
        forall i | 0 <= i < |rest| && |rest[i].bad| > 0
          ensures |rest[i].good| < |rest[i].bad| || (i == |rest| - 1 && rest[i].good != rest[i].bad)
        {
          assert rest[i] == table[i + 1];
        }
      }
      if |m.bad| == 0 || !Occurs(s, m.bad) {
        if |m.bad| > 0 {
          NoOccurrenceUnchanged(s, m.bad, m.good);
        }
        UnchangedIffNoBadToken(s, rest);
        assert HasNoBadToken(s, table) <==> HasNoBadToken(s, rest) by {
          if HasNoBadToken(s, rest) {
            forall i | 0 <= i < |table| && |table[i].bad| > 0 ensures !Occurs(s, table[i].bad) {
              if i > 0 {
                assert table[i] == rest[i - 1];
              }
            }
          }
          if HasNoBadToken(s, table) {
            forall i | 0 <= i < |rest| && |rest[i].bad| > 0 ensures !Occurs(s, rest[i].bad) {
              assert rest[i] == table[i + 1];
            }
          }
        }
      } else {
        assert !HasNoBadToken(s, table) by {
          assert |table[0].bad| > 0 && Occurs(s, table[0].bad);
        }
        var s' := ReplaceAll(s, m.bad, m.good);
        if |m.good| < |m.bad| {
          Shortens(s, m.bad, m.good);
          NormalizeNotLonger(s', rest);
        } else {
          assert |rest| == 0;
          SameLengthChangesIffOccurs(s, m.bad, m.good);
        }
      }
    }
  }

  /** A unit string is left unchanged by the setter exactly when it holds none of the six bad tokens. */
  lemma NormalizeUnchangedIffClean(s: string)
    ensures Normalize(s) == s <==> HasNoBadToken(s, UnitMapping)
  {
    UnchangedIffNoBadToken(s, UnitMapping);
  }

  /** The setter never lengthens a unit string. */
  lemma NormalizeNeverLonger(s: string)
    ensures |Normalize(s)| <= |s|
  {
    NormalizeNotLonger(s, UnitMapping);
  }

  /** Normalising is not idempotent: a second pass can find a bad token the first pass created. */
  lemma NormalizeNotIdempotent()
    ensures Normalize("AAngng") == "AAng"
    ensures Normalize(Normalize("AAngng")) == "AA"
  {
    NormalizeSixReplaces("AAngng");
    NormalizeSixReplaces("AAng");
    AngSteps();
    ShortUntouched("AAng");
    ShortUntouched("AA");
  }

  lemma AngSteps()
    ensures ReplaceAll("AAngng", "Ang", "A") == "AAng"
    ensures ReplaceAll("AAng", "Ang", "A") == "AA"
  {
    assert "AAngng"[..3][1] != "Ang"[1];
    assert "AAngng"[1..] == "Angng" && "Angng"[..3] == "Ang" && "Angng"[3..] == "ng";
    assert "AAng"[..3][1] != "Ang"[1];
    assert "AAng"[1..] == "Ang" && "Ang"[..3] == "Ang" && "Ang"[3..] == "";
  }

  /** A string shorter than five characters holds none of the last five bad tokens. */
  lemma ShortUntouched(s: string)
    requires |s| < 5
    ensures ReplaceAll(ReplaceAll(ReplaceAll(ReplaceAll(ReplaceAll(
              s, "Spaxel", "pixel"), "spaxel", "pixel"), "Counts", "count"), "COUNTS", "count"), "METER", "meter") == s
  {
    assert ReplaceAll(s, "Spaxel", "pixel") == s;
    assert ReplaceAll(s, "spaxel", "pixel") == s;
    assert ReplaceAll(s, "Counts", "count") == s;
    assert ReplaceAll(s, "COUNTS", "count") == s;
  }
}
